=== FILE: README.md ===
# rn-swiper-list: swipe-index state machine and render window

This project models the logic core of the `rn-swiper-list` card swiper, a
React Native component. It has two parts.

1. The swipe controller from the `useSwipeControls` hook. It tracks the
   continuous active index, a bounded history of visited cards used by
   "swipe back", and one card-handle slot per dataset position. It provides
   `updateActiveIndex` (with its loop reset), the four directional swipes,
   `swipeBack`, and the reset that runs when the dataset changes.
2. The `Swiper` component's pure computations:
   - the symmetric render window `visibleIndexes`, with `MAX_WINDOW_SIZE` = 3;
   - the card list `visibleCards`, which skips falsy items;
   - the "all swiped" flag that drives `onSwipedAll`;
   - the `onIndexChange` guard;
   - the `needsUpdate` refresh predicate.

The controller is a pure transition system. `Controller` holds:

- the active index, as a `real`, because it can be fractional mid-animation;
- the history;
- the dataset length `n`;
- the `loop` flag;
- the set of mounted positions.

A card handle exists at `i` exactly when `0 <= i < n` and card `i` is mounted.
Each operation returns the next state and the calls it makes on card handles,
in order.

The component links the two parts. `Swiper.WindowRender` is the set of handles
a render mounts for a given active index. Runs of swipes and backs
(`SwipesWith`, `BacksWith`) re-render with it before every call. That follows
the index reaction at src/Swiper.tsx:119, which sets the React state to the
floored index on every change of the index, so the window is recomputed
whenever the floored index changes. Both the window and the history reach
three cards behind the current one. So, when every item is truthy, every card
that "swipe back" can return to is mounted.

Modules:

- `Wrappers` (`wrappers.dfy`): `Option`.
- `SwipeControls` (`swipe_controls.dfy`): the state and the operations of the hook.
- `SwipeControlsProofs` (`swipe_controls_proofs.dfy`): the controller invariant `Valid`, its preservation, forward progress, the loop reset and bounded undo.
- `Window` (`window.dfy`): `visibleIndexes` and `visibleCards`.
- `Reactions` (`reactions.dfy`): the three reactions on the active index. `SwipedAllCount` and `IndexReports` are trace drivers: they run the `onSwipedAll` and `onIndexChange` reactions (src/Swiper.tsx:96-122) along a sequence of index values, and the lemmas about them carry their meaning.
- `Swiper` (`swiper.dfy`): controller and window together, plus the ten-card scenario. `WindowRender` is the render driver: the handles bound by `ref={refs[index]}` (src/Swiper.tsx:226) for the cards the window shows, described by `WindowHandles`.

Two details of the code are easy to misread:

- The loop reset at src/hooks/useSwipeControls.ts:40 triggers on
  `activeIndex >= n - 1`. The index is not floored first.
- The window at src/Swiper.tsx:127 is centred on `min(floor(activeIndex), n - 1)`, not on
  `floor(activeIndex)`. With the index at the sentinel `n`, the window still
  ends on the last card.

## Model

| member | source | states |
|---|---|---|
| SwipeControls.Init | src/hooks/useSwipeControls.ts:9-12 | The hook starts at index 0 with history `[0]`, and that state satisfies the controller invariant. |
| SwipeControls.Record | src/hooks/useSwipeControls.ts:57-61 | Appending to the history keeps the last `MAX_BACK_STEPS + 1` = 4 entries of `history + [x]` in their original order. The result ends with `x` and is never empty. |
| SwipeControls.ResetCalls | src/hooks/useSwipeControls.ts:42-44 | The loop reset calls `swipeBack` exactly once on every mounted position in `[from, n)`, in ascending order, and on nothing else. |
| SwipeControls.AtLoopPoint | src/hooks/useSwipeControls.ts:40 | The loop-reset condition: looping is on and the unfloored index is at least `n - 1`. |
| SwipeControls.Forward | src/hooks/useSwipeControls.ts:51-61 | The regular advance moves the index to `min(index + 1, n)`. It never passes `n`, never decreases from an index at most `n`, and records the floor of the new index. |
| SwipeControls.Advance | src/hooks/useSwipeControls.ts:39-63 | At the loop point (looping, index `>= n - 1`), every mounted handle is swiped back in ascending order and the state returns to index 0 with history `[0]`. Otherwise there are no handle calls and the state is `Forward`. |
| SwipeControls.HasHandle | src/hooks/useSwipeControls.ts:18-20 | A handle exists at a position exactly when it has a ref slot (one per dataset position) and its card is mounted, as the guards at lines 67 and 121 test. |
| SwipeControls.Swipe | src/hooks/useSwipeControls.ts:65-99 | Without a mounted handle at `floor(index)` a swipe changes nothing. Otherwise that card is swiped in the given direction first, and the hook then advances. |
| SwipeControls.SwipeBack | src/hooks/useSwipeControls.ts:101-128 | Declines with at most one history entry. A successful back makes one `swipeBack` call on a mounted handle, moves to the second-to-last entry (wrapped to `n - 1` only when looping with a negative entry), and removes exactly the last entry. For a non-negative entry it succeeds exactly when that card has a handle. For a negative entry while looping, it succeeds exactly when card `n - 1` has a handle. |
| SwipeControls.DataChanged | src/hooks/useSwipeControls.ts:25-37 | When the data changes, an index `>= newN` resets to index 0 with history `[0]`. Otherwise index and history are unchanged. |
| SwipeControlsProofs.Backs | src/hooks/useSwipeControls.ts:101-128 | Over any sequence of `swipeBack` calls, at most one fewer than the history length take effect. The history shrinks by exactly the number that took effect. |
| SwipeControlsProofs.CurrentIsFloor | src/hooks/useSwipeControls.ts:53-57 | In a valid state the floored index equals the last history entry and lies in `[0, n]`. The history is the run of consecutive cards ending there. |
| SwipeControlsProofs.SwipeForward | src/hooks/useSwipeControls.ts:51-71 | A swipe with a mounted handle that does not loop moves the index exactly one card forward and records it. The result stays valid. |
| SwipeControlsProofs.ForwardFromValid | src/hooks/useSwipeControls.ts:51-61 | From a valid state below `n`, the regular advance lands on the next card with that card recorded, and keeps the invariant. |
| SwipeControlsProofs.RecordExtendsRun | src/hooks/useSwipeControls.ts:57-61 | Recording the successor of the last entry keeps the history a run of consecutive non-negative cards, including when the oldest entry is dropped. |
| SwipeControlsProofs.LoopResetsToStart | src/hooks/useSwipeControls.ts:40-50 | With looping on, swiping the last card returns the state to index 0 with history `[0]`, and every mounted handle receives `swipeBack`. |
| SwipeControlsProofs.SwipeAtEndIsNoop | src/hooks/useSwipeControls.ts:65-72 | Once the index reaches `n` there is no ref slot under it, so a swipe changes nothing and makes no call. |
| SwipeControlsProofs.SwipePreservesValid | src/hooks/useSwipeControls.ts:39-99 | Every directional swipe keeps the invariant: a non-empty history of at most four consecutive cards ending at the index, and an index at most `n`. |
| SwipeControlsProofs.SwipeBackStep | src/hooks/useSwipeControls.ts:111-127 | From a valid state the previous entry is always in `[0, n)`, so the negative-wrap branch is unreachable. The back succeeds exactly when that card is mounted, and then lands on it. |
| SwipeControlsProofs.SwipeBackPreservesValid | src/hooks/useSwipeControls.ts:101-128 | `swipeBack` keeps the invariant. |
| SwipeControlsProofs.DataChangedPreservesValid | src/hooks/useSwipeControls.ts:33-36 | The data-change reset keeps the invariant, and every history entry lies in `[0, newN]`. |
| SwipeControlsProofs.SwipesMonotone | src/hooks/useSwipeControls.ts:53-54 | Along any run of swipes without looping, the index never decreases and never passes `n`. |
| SwipeControlsProofs.SwipeOneWith | src/hooks/useSwipeControls.ts:65-71 | Without looping, a swipe of a re-rendered deck that mounts the current card, below the end, advances exactly one card and stays valid. The history grows by one entry, up to four. |
| SwipeControlsProofs.SwipeRun | src/hooks/useSwipeControls.ts:51-61 | Without looping, `m` swipes through existing, mounted cards move the deck exactly `m` cards forward. The history grows to at most four entries. |
| SwipeControlsProofs.BackOne | src/hooks/useSwipeControls.ts:119-126 | With the previous card mounted, one back moves exactly one card back and removes the last history entry. |
| SwipeControlsProofs.BackRun | src/hooks/useSwipeControls.ts:111-126 | `k` backs (`k` below the history length), each with the previous card mounted, remove exactly the last `k` history entries. |
| SwipeControlsProofs.RoundTrip | src/hooks/useSwipeControls.ts:39-128 | Without looping, after `m <= 3` swipes through existing, mounted cards, `m` backs (each to a mounted card) restore the starting index. The history becomes the newest part of the original one that the four-entry bound let survive. |
| SwipeControlsProofs.SwipesThenBacks | src/hooks/useSwipeControls.ts:39-128 | Without looping, the same swipes and backs end on a valid state on the starting card. The history length is reduced exactly by what the bound dropped. |
| SwipeControlsProofs.SurvivingSuffix | src/hooks/useSwipeControls.ts:57-61 | A valid state back on the starting card, whose history lost only what the four-entry bound dropped during the swipes, holds the newest entries of the original history. |
| SwipeControlsProofs.SameRunIsSuffix | src/hooks/useSwipeControls.ts:57-61 | Two valid states on the same card have histories where the shorter is a suffix of the longer. |
| SwipeControlsProofs.SwipeThenBack | src/hooks/useSwipeControls.ts:51-127 | Without looping, a swipe followed by a back, with the swiped card still mounted, returns to the swiped card. The back calls `swipeBack` on exactly that card. |
| SwipeControlsProofs.AtMostMaxBackSteps | src/hooks/useSwipeControls.ts:106-126 | However the mounted cards change between calls, at most `MAX_BACK_STEPS` = 3 backs in a row take effect. |
| SwipeControlsProofs.LoopScenario | src/hooks/useSwipeControls.ts:40-50 | Five looping cards resting on card 4: one more swipe gives index 0 and history `[0]`. |
| Window.Range | src/Swiper.tsx:135-138 | The loop pushes `lo, lo + 1, ..., hi` in that order, and nothing when `lo > hi`. |
| Window.Anchor | src/Swiper.tsx:127 | The card the window is centred on: the floored index, clamped to the last card. |
| Window.VisibleIndexes | src/Swiper.tsx:125-141 | The window holds the positions in `[0, n)` within 3 of the anchor `min(floor(index), n - 1)`, and exactly those, strictly ascending. It has at most 7 entries. It contains the anchor whenever `n > 0` and the index is not negative, and is empty when `n = 0`. |
| Window.VisibleCards | src/Swiper.tsx:178-194 | Every card is a window position with its unchanged item, and that item is truthy. Every window position with a truthy item has its card. There are no more cards than window positions. |
| Window.VisibleCardsAscending | src/Swiper.tsx:178-188 | Skipping falsy items keeps the window order, so the cards come in strictly ascending position. |
| Window.RenderedCardsShape | src/Swiper.tsx:169-257 | A render shows at most 7 cards in ascending order. Each is a truthy item within 3 of the anchor, passed with its own index. Every such item is shown. |
| Window.WindowPastEnd | src/Swiper.tsx:127-132 | With the index at or past `n > 0`, the window is non-empty and ends on the last card. |
| Reactions.AllSwiped | src/Swiper.tsx:96-99 | The flag behind `onSwipedAll`: the index has reached or passed the dataset length. |
| Reactions.SwipedAllFires | src/Swiper.tsx:96-104 | `onSwipedAll` runs only when the flag is true, never when it was already true, and always when it becomes true. |
| Reactions.SwipedAllAtMostOnce | src/Swiper.tsx:96-106 | Along an index trace that never moves back, `onSwipedAll` runs exactly once if the trace ends with all cards swiped (and the flag was not already set), and otherwise never. |
| Reactions.IndexChangeReport | src/Swiper.tsx:113-116 | `onIndexChange` receives the raw current value, exactly when it differs from the previous one. On the first evaluation there is no previous value, so it always receives it. |
| Reactions.ReportsComeFromTrace | src/Swiper.tsx:109-122 | Every value `onIndexChange` receives is one the index took. |
| Reactions.ReportsChangeEachTime | src/Swiper.tsx:113-116 | No value is reported twice in a row, and the first report differs from the value before. |
| Reactions.ReportsEndOnLastValue | src/Swiper.tsx:113-116 | The last report is the value the index settled on. That value is reported whenever it differs from the starting value. |
| Reactions.IncreasingTraceFullyReported | src/Swiper.tsx:113-116 | When each step moves the index strictly forward, every value of the trace is reported, in order. |
| Reactions.NeedsUpdate | src/Swiper.tsx:153-161 | A refresh is requested exactly when the deck does not loop, there is a previous value, the floored index changed, and the new floored index is `>= n - 4` or `<= 4` (within `MAX_WINDOW_SIZE + 1` of either end). |
| Reactions.NeedsUpdateQuietInMiddle | src/Swiper.tsx:153-157 | Away from both ends, the edge reaction at lines 153-161 requests no refresh. |
| Reactions.NeedsUpdateCoversClippedWindow | src/Swiper.tsx:131-157 | Whenever the floored index changes to one whose window is clipped by an end of the dataset, a refresh is requested (without looping). |
| Reactions.NeedsUpdateSmallDeck | src/Swiper.tsx:153-157 | On a deck of at most nine cards, every change of the floored index requests a refresh. |
| Swiper.WindowHandles | src/Swiper.tsx:178-226 | With all items truthy, handles are mounted at exactly the positions within 3 of the anchor. |
| Swiper.WindowMountsRecentCards | src/Swiper.tsx:125-141 | Resting on a card, the render mounts that card and the one before it. Resting on the sentinel `n`, it mounts the last card. |
| Swiper.RenderedHistoryMounted | src/Swiper.tsx:125-141 | In a rendered deck, every history entry before the current card has a mounted handle. |
| Swiper.RenderedSwipeRun | src/hooks/useSwipeControls.ts:65-99 | In a rendered deck of truthy items without looping, `m` swipes through existing cards move the index exactly `m` cards. |
| Swiper.RenderedRoundTrip | src/hooks/useSwipeControls.ts:101-128 | In a rendered deck of truthy items without looping, after `m <= 3` swipes through existing cards, `m` backs return to the starting card, re-rendering before every call. |
| Swiper.SwipedAllOnceWhileSwiping | src/Swiper.tsx:96-106 | Swiping forward without looping from before the end, `onSwipedAll` runs at most once. It runs exactly when the last swipe reaches the end. |
| Swiper.SwipeTraceIncreasing | src/hooks/useSwipeControls.ts:51-61 | Without looping, swiping through existing, mounted cards, the first new index is one card on and each further swipe moves the index strictly forward. |
| Swiper.EverySwipeReported | src/Swiper.tsx:109-122 | In a rendered deck of truthy items without looping, swiping through existing cards reports every new index to `onIndexChange`, one per swipe and in order. |
| Swiper.TenCardWindow | src/Swiper.tsx:125-141 | Ten cards: the window at card 5 is cards 2 to 8, and at card 6 it is cards 3 to 9. |
| Swiper.TenCardSwipeAndBack | src/hooks/useSwipeControls.ts:51-127 | Ten rendered cards resting on card 5: one swipe reaches card 6, and one back returns to card 5. |

## Left out

- Chunked or paged windowing, and the mapping from local to global indices: the component shown does not implement them. Only an example screen passes chunk props.
- The example screen and its simulated network delay.
- Reanimated's delivery of reactions (`useSharedValue`, `useAnimatedReaction` scheduling, `runOnJS`): only the values and predicates the reactions compute are modelled.
- The 100 ms `setTimeout` in the loop reset: the reset is one atomic step to the post-delay state. Swipes made during the delay are not modelled.
- The fractional index values that `SwiperCard` writes during a gesture: `SwiperCard` is not part of this model. `Valid` covers the programmatic operations only.
- The card handles' animations: a call on a handle is recorded as a `HandleCall` value and has no further effect.
- Card keys from `keyExtractor` or `JSON.stringify`: keys do not affect which cards or indices are rendered.
- The React state `setCurrentIndex`: the index reaction at src/Swiper.tsx:119 sets it to the floored index on every run, so the window re-renders on every change of the floored index, whatever `needsUpdate` says. The call at src/Swiper.tsx:161 only repeats that value. The model takes the re-render before every call as given, and models `needsUpdate` as the predicate it computes.
- React plumbing (`useMemo`/`useCallback` dependency lists, `forwardRef`, `useImperativeHandle`): the model treats every computation as recomputed from the current state.
- Optional callbacks: `onSwipedAll` and `onIndexChange` are assumed to be supplied. Without them the reactions do nothing.
- Spring configurations, screen dimensions and interpolation ranges: these are animation parameters only.
- JavaScript truthiness of an item: a parameter `truthy` of `VisibleCards`.
- Falsy items: the rendered-deck lemmas in `Swiper` assume every item is truthy. A falsy item gets no card (src/Swiper.tsx:181), so its handle is never mounted. Every programmatic swipe resting on it does nothing (src/hooks/useSwipeControls.ts:67), so the deck stops there. A back to it declines (src/hooks/useSwipeControls.ts:121).
- Swipes past the end: the round-trip lemmas require the swipes to go through existing cards. A swipe at the sentinel `n` does nothing, so the backs that follow return to an earlier card than the start.
- Reactions.SwipedAllFires: the handler is modelled as running when the derived flag changes, not on every write of the index while the flag stays true. No modelled operation writes the index while the flag stays true, except a data change to an empty dataset: that writes 0 while `0 >= 0` keeps the flag true. The source then calls `onSwipedAll` again, and the model does not.
- Reactions.IndexReports: its own contract states only the length bound. Its meaning is stated by `ReportsComeFromTrace`, `ReportsChangeEachTime`, `ReportsEndOnLastValue` and `IncreasingTraceFullyReported`.

=== FILE: reactions.dfy ===
/**
  The three reactions of the `Swiper` component that watch the active index,
  reduced to the predicates and values they compute: the "all swiped" event,
  the index-change event and the window-refresh decision.
*/
module Reactions {
  import opened Wrappers
  import opened Window

  /** The flag the "all swiped" reaction derives: the index has reached the sentinel `n`. */
  predicate AllSwiped(activeIndex: real, n: nat)
  {
    activeIndex >= n as real
  }

  /**
    Whether `onSwipedAll` runs when the derived flag is re-evaluated to
    `finished`: the reaction is keyed on the flag, so it runs when the flag
    changes to true (the first evaluation counts as a change).
  */
  function SwipedAllFires(previous: Option<bool>, finished: bool): (fires: bool)
    ensures fires ==> finished
    ensures previous == Some(true) ==> !fires
    ensures finished && previous != Some(true) ==> fires
  {
    finished && previous != Some(true)
  }

  /** How many times `onSwipedAll` runs along a trace of active indices. */
  function SwipedAllCount(previous: Option<bool>, trace: seq<real>, n: nat): nat
    decreases |trace|
  {
    if trace == [] then 0
    else
      var finished := AllSwiped(trace[0], n);
      (if SwipedAllFires(previous, finished) then 1 else 0) + SwipedAllCount(Some(finished), trace[1..], n)
  }

  predicate Nondecreasing(trace: seq<real>)
  {
    forall j, k :: 0 <= j < k < |trace| ==> trace[j] <= trace[k]
  }

  /**
    Along an index trace that never moves back, `onSwipedAll` runs exactly
    once if the trace ends with every card swiped and the flag was not already
    set, and never otherwise.
  */
  lemma {:induction false} SwipedAllAtMostOnce(previous: Option<bool>, trace: seq<real>, n: nat)
    requires Nondecreasing(trace)
    requires previous == Some(true) && |trace| > 0 ==> AllSwiped(trace[0], n)
    ensures SwipedAllCount(previous, trace, n)
      == if |trace| > 0 && AllSwiped(trace[|trace| - 1], n) && previous != Some(true) then 1 else 0
    decreases |trace|
  {
    if trace != [] {
      var rest := trace[1..];
      var finished := AllSwiped(trace[0], n);
      assert Nondecreasing(rest) by {
        forall j, k | 0 <= j < k < |rest|
          ensures rest[j] <= rest[k]
        {
          assert rest[j] == trace[j + 1] && rest[k] == trace[k + 1];
        }
      }
      if rest != [] {
        assert trace[0] <= rest[0] && trace[0] <= trace[|trace| - 1];
        assert rest[|rest| - 1] == trace[|trace| - 1];
      }
      SwipedAllAtMostOnce(Some(finished), rest, n);
    }
  }

  /**
    What `onIndexChange` receives when the index is re-evaluated to `current`:
    the raw value, whenever it differs from the previous one (there is none on
    the first evaluation).
  */
  function IndexChangeReport(previous: Option<real>, current: real): (report: Option<real>)
    ensures report.Some? ==> report.value == current
    ensures report.None? <==> previous == Some(current)
  {
    if previous == Some(current) then None else Some(current)
  }

  /** Every value `onIndexChange` receives along a trace of active indices, in order. */
  function IndexReports(previous: Option<real>, trace: seq<real>): (reports: seq<real>)
    ensures |reports| <= |trace|
    decreases |trace|
  {
    if trace == [] then []
    else
      var rest := IndexReports(Some(trace[0]), trace[1..]);
      match IndexChangeReport(previous, trace[0])
      case Some(v) => [v] + rest
      case None => rest
  }

  /** Each report is a value the index took. */
  lemma {:induction false} ReportsComeFromTrace(previous: Option<real>, trace: seq<real>)
    ensures forall k :: 0 <= k < |IndexReports(previous, trace)| ==> IndexReports(previous, trace)[k] in trace
    decreases |trace|
  {
    if trace != [] {
      ReportsComeFromTrace(Some(trace[0]), trace[1..]);
      var rest := IndexReports(Some(trace[0]), trace[1..]);
      assert forall x :: x in trace[1..] ==> x in trace;
    }
  }

  /**
    No value is reported twice in a row, and the first report differs from
    the value before the trace.
  */
  lemma {:induction false} ReportsChangeEachTime(previous: Option<real>, trace: seq<real>)
    ensures var reports := IndexReports(previous, trace);
      && (forall k :: 0 < k < |reports| ==> reports[k] != reports[k - 1])
      && (|reports| > 0 ==> Some(reports[0]) != previous)
    decreases |trace|
  {
    if trace != [] {
      ReportsChangeEachTime(Some(trace[0]), trace[1..]);
    }
  }

  /**
    The last report is the value the index settled on, and that value is
    reported whenever it differs from the value before the trace.
  */
  lemma {:induction false} ReportsEndOnLastValue(previous: Option<real>, trace: seq<real>)
    ensures var reports := IndexReports(previous, trace);
      && (|reports| > 0 ==> reports[|reports| - 1] == trace[|trace| - 1])
      && (|trace| > 0 && Some(trace[|trace| - 1]) != previous ==> |reports| > 0)
    decreases |trace|
  {
    if trace != [] {
      ReportsEndOnLastValue(Some(trace[0]), trace[1..]);
    }
  }

  predicate StrictlyIncreasing(trace: seq<real>)
  {
    forall k :: 0 < k < |trace| ==> trace[k - 1] < trace[k]
  }

  /**
    When every step moves the index strictly forward, `onIndexChange` receives
    every value of the trace.
  */
  lemma {:induction false} IncreasingTraceFullyReported(start: real, trace: seq<real>)
    requires |trace| > 0 ==> start < trace[0]
    requires StrictlyIncreasing(trace)
    ensures IndexReports(Some(start), trace) == trace
    decreases |trace|
  {
    if trace != [] {
      TailStrictlyIncreasing(trace);
      IncreasingTraceFullyReported(trace[0], trace[1..]);
    }
  }

  lemma TailStrictlyIncreasing(trace: seq<real>)
    requires |trace| > 0 && StrictlyIncreasing(trace)
    ensures StrictlyIncreasing(trace[1..])
    ensures |trace| > 1 ==> trace[0] < trace[1..][0]
  {
    var rest := trace[1..];
    forall k | 0 < k < |rest|
      ensures rest[k - 1] < rest[k]
    {
      assert rest[k - 1] == trace[k] && rest[k] == trace[k + 1];
    }
  }

  /** A value below the head of a strictly increasing trace extends it strictly increasing. */
  lemma ConsStrictlyIncreasing(x: real, rest: seq<real>)
    requires StrictlyIncreasing(rest)
    requires |rest| > 0 ==> x < rest[0]
    ensures StrictlyIncreasing([x] + rest)
  {
    var t := [x] + rest;
    forall k | 1 < k < |t|
      ensures t[k - 1] < t[k]
    {
      assert t[k - 1] == rest[k - 2] && t[k] == rest[k - 1];
    }
  }

  /**
    The window-refresh decision taken when the active index changes: only when
    the floored index changed, the deck does not loop, and the new floored index
    is within `MaxWindowSize + 1` of either end.
  */
  function NeedsUpdate(previous: Option<real>, current: real, n: nat, loop: bool): (update: bool)
    ensures loop ==> !update
    ensures update ==> previous.Some? && previous.value.Floor != current.Floor
    ensures update ==> current.Floor >= n - MaxWindowSize - 1 || current.Floor <= MaxWindowSize + 1
    ensures (previous.Some? && !loop && previous.value.Floor != current.Floor
             && (current.Floor >= n - MaxWindowSize - 1 || current.Floor <= MaxWindowSize + 1)) ==> update
  {
    match previous
    case None => false
    case Some(p) =>
      if current.Floor != p.Floor then
        var isReachingEnd := current.Floor >= n - MaxWindowSize - 1;
        var isNearStart := current.Floor <= MaxWindowSize + 1;
        (isReachingEnd || isNearStart) && !loop
      else false
  }

  /** Away from both ends no refresh is requested. */
  lemma NeedsUpdateQuietInMiddle(previous: Option<real>, current: real, n: nat, loop: bool)
    requires MaxWindowSize + 1 < current.Floor < n - MaxWindowSize - 1
    ensures !NeedsUpdate(previous, current, n, loop)
  {
  }

  /**
    A refresh is requested whenever the floored index changes to one whose
    window is clipped by an end of the dataset (fewer than
    `2 * MaxWindowSize + 1` positions), unless the deck loops.
  */
  lemma NeedsUpdateCoversClippedWindow(p: real, current: real, n: nat)
    requires p.Floor != current.Floor
    requires |VisibleIndexes(current, n)| < 2 * MaxWindowSize + 1
    ensures NeedsUpdate(Some(p), current, n, false)
  {
    var a := Anchor(current, n);
    var lo := Max(0, a - MaxWindowSize);
    var hi := Min(n - 1, a + MaxWindowSize);
    assert VisibleIndexes(current, n) == Range(lo, hi);
    assert lo > a - MaxWindowSize || hi < a + MaxWindowSize;
  }

  /** On a deck of at most nine cards every change of the floored index requests a refresh. */
  lemma NeedsUpdateSmallDeck(p: real, current: real, n: nat)
    requires n <= 2 * MaxWindowSize + 3
    requires p.Floor != current.Floor
    ensures NeedsUpdate(Some(p), current, n, false)
  {
  }
}

=== FILE: swipe_controls.dfy ===
/**
  The swipe-index state machine of the `useSwipeControls` hook, as a pure
  transition system.

  The state holds the continuous active index, the bounded history of visited
  integral indices used by "swipe back", the dataset length `n`, the `loop`
  flag and the set of positions whose card handle is currently mounted. The
  hook keeps one ref slot per dataset position, so a handle exists at `i`
  exactly when `0 <= i < n` and the card at `i` is mounted.

  Every operation returns the next state together with the calls it makes on
  card handles, in the order it makes them.
*/
module SwipeControls {

  /** How many cards the user may go back. */
  const MaxBackSteps: nat := 3

  /** The history keeps the current index plus `MaxBackSteps` earlier ones. */
  const HistoryLimit: nat := MaxBackSteps + 1

  datatype Direction = Left | Right | Top | Bottom

  /** A call on the imperative handle of the card at `index`. */
  datatype HandleCall =
    | HandleSwipe(index: int, direction: Direction)
    | HandleBack(index: int)

  datatype Controller = Controller(
    activeIndex: real,
    history: seq<int>,
    n: nat,
    loop: bool,
    mounted: set<int>)

  /** The state after an operation and the handle calls it made. */
  datatype Step = Step(state: Controller, calls: seq<HandleCall>)

  /** A ref slot exists at `i` and its card is mounted. */
  predicate HasHandle(s: Controller, i: int)
  {
    0 <= i < s.n && i in s.mounted
  }

  /**
    The controller invariant: the history is a non-empty run of at most
    `HistoryLimit` consecutive non-negative integers whose last entry is the
    (integral) active index, and the active index never passes `n`.
  */
  predicate Valid(s: Controller)
  {
    && 1 <= |s.history| <= HistoryLimit
    && 0 <= s.history[0]
    && s.activeIndex == s.history[|s.history| - 1] as real
    && s.activeIndex <= s.n as real
    && (forall k :: 0 <= k < |s.history| ==> s.history[k] == s.history[0] + k)
  }

  /** The state the hook starts in: index 0 with history `[0]`. */
  function Init(n: nat, loop: bool, mounted: set<int>): (s: Controller)
    ensures Valid(s)
    ensures s.activeIndex == 0.0 && s.history == [0]
    ensures s.n == n && s.loop == loop && s.mounted == mounted
  {
    Controller(0.0, [0], n, loop, mounted)
  }

  /** `Math.min` on two numbers. */
  function MinReal(a: real, b: real): real
  {
    if a <= b then a else b
  }

  /** Keeps the last `k` entries of `h` when it is longer than `k`. */
  function KeepLast(h: seq<int>, k: nat): (r: seq<int>)
    ensures |r| == if |h| > k then k else |h|
    ensures r == h[|h| - |r|..]
  {
    if |h| > k then h[|h| - k..] else h
  }

  /** Appends `x` to the history and drops the oldest entries beyond the limit. */
  function Record(h: seq<int>, x: int): (r: seq<int>)
    ensures 1 <= |r| <= HistoryLimit
    ensures r[|r| - 1] == x
    ensures |r| == if |h| + 1 > HistoryLimit then HistoryLimit else |h| + 1
    ensures r == (h + [x])[|h| + 1 - |r|..]
    ensures |h| < HistoryLimit ==> r == h + [x]
  {
    KeepLast(h + [x], HistoryLimit)
  }

  /**
    The `swipeBack` calls the loop reset makes: one per mounted position in
    `[from, n)`, in ascending order.
  */
  function ResetCalls(mounted: set<int>, from: int, n: int): (r: seq<HandleCall>)
    ensures forall k :: 0 <= k < |r| ==> r[k].HandleBack? && from <= r[k].index < n && r[k].index in mounted
    ensures forall i :: from <= i < n && i in mounted ==> HandleBack(i) in r
    ensures forall j, k :: 0 <= j < k < |r| ==> r[j].index < r[k].index
    decreases n - from
  {
    if from >= n then []
    else
      var rest := ResetCalls(mounted, from + 1, n);
      if from in mounted then [HandleBack(from)] + rest else rest
  }

  /**
    The regular branch of `updateActiveIndex`: one card forward, stopping at
    the "all swiped" sentinel `n`, with the floor of the new index recorded in
    the history.
  */
  function Forward(s: Controller): (r: Controller)
    ensures r.n == s.n && r.loop == s.loop && r.mounted == s.mounted
    ensures r.activeIndex <= s.n as real
    ensures s.activeIndex <= s.n as real ==> s.activeIndex <= r.activeIndex
    ensures s.activeIndex + 1.0 <= s.n as real ==> r.activeIndex == s.activeIndex + 1.0
    ensures s.activeIndex + 1.0 >= s.n as real ==> r.activeIndex == s.n as real
    ensures r.history == Record(s.history, r.activeIndex.Floor)
  {
    var newIndex := MinReal(s.activeIndex + 1.0, s.n as real);
    Controller(newIndex, Record(s.history, newIndex.Floor), s.n, s.loop, s.mounted)
  }

  /** Looping is on and the index is at (or past) the last card. */
  predicate AtLoopPoint(s: Controller)
  {
    s.loop && s.activeIndex >= (s.n - 1) as real
  }

  /**
    `updateActiveIndex`: advance after a card has been swiped away. When
    looping past the last card every mounted card is swiped back and the
    state returns to index 0 with history `[0]` (the delayed reset is taken
    as one atomic step). Otherwise the index moves one card `Forward`.
  */
  function Advance(s: Controller): (r: Step)
    ensures r.state.n == s.n && r.state.loop == s.loop && r.state.mounted == s.mounted
    ensures AtLoopPoint(s) ==>
      && r.state.activeIndex == 0.0 && r.state.history == [0]
      && (forall k :: 0 <= k < |r.calls| ==> r.calls[k].HandleBack? && HasHandle(s, r.calls[k].index))
      && (forall i :: HasHandle(s, i) ==> HandleBack(i) in r.calls)
      && (forall j, k :: 0 <= j < k < |r.calls| ==> r.calls[j].index < r.calls[k].index)
    ensures !AtLoopPoint(s) ==> r.calls == [] && r.state == Forward(s)
  {
    if AtLoopPoint(s) then
      Step(Controller(0.0, [0], s.n, s.loop, s.mounted), ResetCalls(s.mounted, 0, s.n))
    else
      Step(Forward(s), [])
  }

  /**
    `swipeRight` / `swipeTop` / `swipeLeft` / `swipeBottom`: swipe the card at
    the floor of the active index away in direction `d`, then advance. Without
    a mounted handle at that position nothing happens.
  */
  function Swipe(s: Controller, d: Direction): (r: Step)
    ensures !HasHandle(s, s.activeIndex.Floor) ==> r == Step(s, [])
    ensures HasHandle(s, s.activeIndex.Floor) ==>
      && |r.calls| >= 1
      && r.calls[0] == HandleSwipe(s.activeIndex.Floor, d)
      && r.state == Advance(s).state
      && r.calls[1..] == Advance(s).calls
  {
    var current := s.activeIndex.Floor;
    if !HasHandle(s, current) then Step(s, [])
    else
      var next := Advance(s);
      Step(next.state, [HandleSwipe(current, d)] + next.calls)
  }

  /**
    `swipeBack`: return to the second-to-last history entry. Declined when the
    history has a single entry, when (without looping) that entry has no ref
    slot, or when the target card is not mounted. A negative entry is wrapped
    to `n - 1` when looping. On success the target card is swiped back, it
    becomes the active index and exactly the last history entry is removed.
  */
  function SwipeBack(s: Controller): (r: Step)
    ensures |s.history| <= 1 ==> r == Step(s, [])
    ensures r == Step(s, []) || (
      && |s.history| >= 2
      && |r.calls| == 1 && r.calls[0].HandleBack?
      && HasHandle(s, r.calls[0].index)
      && r.state.activeIndex == r.calls[0].index as real
      && r.state.history == s.history[..|s.history| - 1]
      && r.state.n == s.n && r.state.loop == s.loop && r.state.mounted == s.mounted
      && (r.calls[0].index == s.history[|s.history| - 2] || (s.loop && s.history[|s.history| - 2] < 0 && r.calls[0].index == s.n - 1)))
    ensures |s.history| >= 2 && 0 <= s.history[|s.history| - 2] ==>
      (r != Step(s, []) <==> HasHandle(s, s.history[|s.history| - 2]))
    ensures |s.history| >= 2 && s.loop && s.history[|s.history| - 2] < 0 ==>
      (r != Step(s, []) <==> HasHandle(s, s.n - 1))
  {
    var h := s.history;
    if |h| <= 1 then Step(s, [])
    else
      var previous := h[|h| - 2];
      if !s.loop && (previous < 0 || previous >= s.n) then Step(s, [])
      else
        var target := if previous < 0 then s.n - 1 else previous;
        if HasHandle(s, target) then
          Step(Controller(target as real, h[..|h| - 1], s.n, s.loop, s.mounted), [HandleBack(target)])
        else Step(s, [])
  }

  /**
    The effect that runs when the dataset changes after the first render: the
    ref slots are rebuilt for `newN` items (`newMounted` is whatever cards
    mounted on them), and an active index that is no longer in range resets
    the state to index 0 with history `[0]`.
  */
  function DataChanged(s: Controller, newN: nat, newMounted: set<int>): (r: Controller)
    ensures r.n == newN && r.loop == s.loop && r.mounted == newMounted
    ensures s.activeIndex >= newN as real ==> r.activeIndex == 0.0 && r.history == [0]
    ensures s.activeIndex < newN as real ==> r.activeIndex == s.activeIndex && r.history == s.history
  {
    if s.activeIndex >= newN as real then
      Controller(0.0, [0], newN, s.loop, newMounted)
    else
      Controller(s.activeIndex, s.history, newN, s.loop, newMounted)
  }
}

=== FILE: swipe_controls_proofs.dfy ===
/**
  Properties of the swipe-index state machine: the invariant every public
  operation keeps, forward progress, the loop reset, and bounded undo.
*/
module SwipeControlsProofs {
  import opened SwipeControls

  /** The integral index a valid state is at rest on. */
  function Current(s: Controller): int
  {
    if |s.history| == 0 then 0 else s.history[|s.history| - 1]
  }

  /** The same state with a different set of mounted cards, as after a re-render. */
  function Remount(s: Controller, mounted: set<int>): (r: Controller)
  {
    Controller(s.activeIndex, s.history, s.n, s.loop, mounted)
  }

  /**
    A render of the deck: the positions whose card handle is mounted while the
    deck rests on a given active index.
  */
  type Render = real -> set<int>

  /** Swipes in order, the deck re-rendering with `window` before each one. */
  function SwipesWith(s: Controller, window: Render, ds: seq<Direction>): Controller
    decreases |ds|
  {
    if ds == [] then s
    else SwipesWith(Swipe(Remount(s, window(s.activeIndex)), ds[0]).state, window, ds[1..])
  }

  /** The active index after each swipe of `SwipesWith`. */
  function IndexTrace(s: Controller, window: Render, ds: seq<Direction>): (t: seq<real>)
    ensures |t| == |ds|
    decreases |ds|
  {
    if ds == [] then []
    else
      var next := Swipe(Remount(s, window(s.activeIndex)), ds[0]).state;
      [next.activeIndex] + IndexTrace(next, window, ds[1..])
  }

  /** `k` calls of `swipeBack`, the deck re-rendering with `window` before each one. */
  function BacksWith(s: Controller, window: Render, k: nat): Controller
    decreases k
  {
    if k == 0 then s
    else BacksWith(SwipeBack(Remount(s, window(s.activeIndex))).state, window, k - 1)
  }

  /** Resting on card `c`, the render mounts card `c`. */
  predicate MountedAt(window: Render, c: int)
  {
    c in window(c as real)
  }

  /** Resting on card `c`, the render mounts the card before it. */
  predicate PreviousMountedAt(window: Render, c: int)
  {
    c - 1 in window(c as real)
  }

  /**
    Calls `swipeBack` once per entry of `mounts`, the cards mounted before each
    call being that entry. Returns the final state and how many of the calls
    took effect.
  */
  function Backs(s: Controller, mounts: seq<set<int>>): (r: (Controller, nat))
    requires 1 <= |s.history|
    ensures 1 <= |r.0.history|
    ensures r.1 <= |s.history| - 1
    ensures |r.0.history| == |s.history| - r.1
    decreases |mounts|
  {
    if mounts == [] then (s, 0)
    else
      var before := Remount(s, mounts[0]);
      var after := SwipeBack(before);
      var rest := Backs(after.state, mounts[1..]);
      (rest.0, rest.1 + if after == Step(before, []) then 0 else 1)
  }

  /** The active index of a valid state is integral and the history ends on it. */
  lemma CurrentIsFloor(s: Controller)
    requires Valid(s)
    ensures s.activeIndex.Floor == Current(s)
    ensures 0 <= Current(s) <= s.n
    ensures forall k :: 0 <= k < |s.history| ==> s.history[k] == Current(s) - (|s.history| - 1) + k
  {
    FloorOfInt(Current(s));
  }

  /**
    A successful swipe that does not loop moves the index exactly one card
    forward and records it, keeping the state valid.
  */
  lemma SwipeForward(s: Controller, d: Direction)
    requires Valid(s)
    requires HasHandle(s, Current(s))
    requires !(s.loop && Current(s) >= s.n - 1)
    ensures Valid(Swipe(s, d).state)
    ensures Swipe(s, d).state.activeIndex == s.activeIndex + 1.0
    ensures Swipe(s, d).state.history == Record(s.history, Current(s) + 1)
    ensures Swipe(s, d).state.n == s.n && Swipe(s, d).state.mounted == s.mounted && Swipe(s, d).state.loop == s.loop
  {
    CurrentIsFloor(s);
    assert !AtLoopPoint(s);
    ForwardFromValid(s);
  }

  /** From a valid state below `n`, `Forward` moves exactly one card and stays valid. */
  lemma ForwardFromValid(s: Controller)
    requires Valid(s)
    requires Current(s) < s.n
    ensures Valid(Forward(s))
    ensures Forward(s).activeIndex == s.activeIndex + 1.0
    ensures Forward(s).history == Record(s.history, Current(s) + 1)
  {
    var c := Current(s);
    ForwardOneCard(s, c);
    NextStateValid(s, c, Forward(s));
  }

  /** `Forward` from an integral index below `n` lands on the next integer. */
  lemma ForwardOneCard(s: Controller, c: int)
    requires s.activeIndex == c as real && c < s.n
    ensures Forward(s).activeIndex == (c + 1) as real
    ensures Forward(s).history == Record(s.history, c + 1)
    ensures Forward(s).n == s.n
  {
    FloorOfInt(c + 1);
  }

  /** A state one card on from a valid one, with that card recorded, is valid. */
  lemma NextStateValid(s: Controller, c: int, t: Controller)
    requires Valid(s) && c == Current(s) && c < s.n && t.n == s.n
    requires t.activeIndex == (c + 1) as real
    requires t.history == Record(s.history, c + 1)
    ensures Valid(t)
  {
    RecordExtendsRun(s.history, c + 1);
  }

  lemma FloorOfInt(x: int)
    ensures (x as real).Floor == x
  {
  }

  /** Recording the successor of the last entry keeps a non-negative run of consecutive entries. */
  lemma RecordExtendsRun(h: seq<int>, x: int)
    requires |h| >= 1 && 0 <= h[0] && x == h[|h| - 1] + 1
    requires forall k :: 0 <= k < |h| ==> h[k] == h[0] + k
    ensures var r := Record(h, x);
      0 <= r[0] && forall k :: 0 <= k < |r| ==> r[k] == r[0] + k
  {
    var r := Record(h, x);
    var e := h + [x];
    assert forall k :: 0 <= k < |e| ==> e[k] == h[0] + k;
    var off := |h| + 1 - |r|;
    assert forall k :: 0 <= k < |r| ==> r[k] == e[off + k];
  }

  /** With looping on, swiping the last card brings the deck back to the start. */
  lemma LoopResetsToStart(s: Controller, d: Direction)
    requires Valid(s)
    requires s.loop && HasHandle(s, Current(s)) && Current(s) >= s.n - 1
    ensures Swipe(s, d).state.activeIndex == 0.0 && Swipe(s, d).state.history == [0]
    ensures Valid(Swipe(s, d).state)
    ensures forall i :: HasHandle(s, i) ==> HandleBack(i) in Swipe(s, d).calls
  {
    CurrentIsFloor(s);
  }

  /** A swipe is a no-op once every card is swiped: there is no ref slot at `n`. */
  lemma SwipeAtEndIsNoop(s: Controller, d: Direction)
    requires s.activeIndex >= s.n as real
    ensures Swipe(s, d) == Step(s, [])
  {
    assert !HasHandle(s, s.activeIndex.Floor);
  }

  /** Every directional swipe keeps the controller invariant. */
  lemma SwipePreservesValid(s: Controller, d: Direction)
    requires Valid(s)
    ensures Valid(Swipe(s, d).state)
  {
    CurrentIsFloor(s);
    if HasHandle(s, Current(s)) && !(s.loop && Current(s) >= s.n - 1) {
      SwipeForward(s, d);
    }
  }

  /**
    Going back from a valid state returns to the previous card exactly when it
    is mounted: the wrap-around branch for negative entries is unreachable.
  */
  lemma SwipeBackStep(s: Controller)
    requires Valid(s) && |s.history| >= 2
    ensures 0 <= s.history[|s.history| - 2] < s.n
    ensures HasHandle(s, Current(s) - 1) ==>
      && SwipeBack(s).state.activeIndex == (Current(s) - 1) as real
      && SwipeBack(s).state.history == s.history[..|s.history| - 1]
      && SwipeBack(s).calls == [HandleBack(Current(s) - 1)]
    ensures !HasHandle(s, Current(s) - 1) ==> SwipeBack(s) == Step(s, [])
  {
    CurrentIsFloor(s);
  }

  /** Going back keeps the controller invariant. */
  lemma SwipeBackPreservesValid(s: Controller)
    requires Valid(s)
    ensures Valid(SwipeBack(s).state)
  {
    if |s.history| >= 2 {
      SwipeBackStep(s);
      CurrentIsFloor(s);
      var r := SwipeBack(s).state;
      if HasHandle(s, Current(s) - 1) {
        assert r.history == s.history[..|s.history| - 1];
        assert r.history[|r.history| - 1] == s.history[|s.history| - 2];
      }
    }
  }

  /**
    Rebuilding the ref slots keeps the invariant: either the state resets, or
    every history entry is at most the active index and so still below the new
    length.
  */
  lemma DataChangedPreservesValid(s: Controller, newN: nat, newMounted: set<int>)
    requires Valid(s)
    ensures Valid(DataChanged(s, newN, newMounted))
    ensures forall k :: 0 <= k < |DataChanged(s, newN, newMounted).history| ==>
      0 <= DataChanged(s, newN, newMounted).history[k] <= newN
  {
    CurrentIsFloor(s);
  }

  /**
    Without looping, a run of swipes never moves the index backwards and never
    past `n`: each step's index is at least the one before and at most `n`.
  */
  lemma {:induction false} SwipesMonotone(s: Controller, window: Render, ds: seq<Direction>)
    requires !s.loop && s.activeIndex <= s.n as real
    ensures forall k :: 0 <= k < |ds| ==> IndexTrace(s, window, ds)[k] <= s.n as real
    ensures forall j, k :: 0 <= j < k < |ds| ==> IndexTrace(s, window, ds)[j] <= IndexTrace(s, window, ds)[k]
    ensures forall k :: 0 <= k < |ds| ==> s.activeIndex <= IndexTrace(s, window, ds)[k]
    decreases |ds|
  {
    if ds != [] {
      var next := Swipe(Remount(s, window(s.activeIndex)), ds[0]).state;
      assert s.activeIndex <= next.activeIndex <= s.n as real;
      SwipesMonotone(next, window, ds[1..]);
      assert IndexTrace(s, window, ds) == [next.activeIndex] + IndexTrace(next, window, ds[1..]);
    }
  }

  /** One swipe of a valid, non-looping state resting on a mounted card below `n`. */
  lemma SwipeMountedStep(r: Controller, d: Direction)
    requires Valid(r) && !r.loop && Current(r) < r.n && Current(r) in r.mounted
    ensures var next := Swipe(r, d).state;
      && Valid(next) && Current(next) == Current(r) + 1 && next.n == r.n && !next.loop
      && next.activeIndex == r.activeIndex + 1.0
      && |next.history| == if |r.history| + 1 > HistoryLimit then HistoryLimit else |r.history| + 1
  {
    CurrentIsFloor(r);
    SwipeForward(r, d);
  }

  /** One swipe of a re-rendered deck that mounts the current card. */
  lemma SwipeOneWith(s: Controller, window: Render, d: Direction)
    requires Valid(s) && !s.loop && Current(s) < s.n && MountedAt(window, Current(s))
    ensures var next := Swipe(Remount(s, window(s.activeIndex)), d).state;
      && Valid(next) && Current(next) == Current(s) + 1 && next.n == s.n && !next.loop
      && |next.history| == if |s.history| + 1 > HistoryLimit then HistoryLimit else |s.history| + 1
  {
    var r := Remount(s, window(s.activeIndex));
    assert Valid(r) && Current(r) == Current(s) && Current(r) in r.mounted by {
      assert s.activeIndex == Current(s) as real;
    }
    SwipeMountedStep(r, d);
  }

  /** The same swipe as `SwipeOneWith` moves the continuous index by exactly one. */
  lemma SwipeOneIndex(s: Controller, window: Render, d: Direction)
    requires Valid(s) && !s.loop && Current(s) < s.n && MountedAt(window, Current(s))
    ensures Swipe(Remount(s, window(s.activeIndex)), d).state.activeIndex == s.activeIndex + 1.0
  {
    var r := Remount(s, window(s.activeIndex));
    assert Valid(r) && Current(r) == Current(s) && Current(r) in r.mounted by {
      assert s.activeIndex == Current(s) as real;
    }
    SwipeMountedStep(r, d);
  }

  /**
    `m` swipes through existing cards, each mounted when the deck rests on it,
    move the deck `m` cards forward.
  */
  lemma {:induction false} SwipeRun(s: Controller, window: Render, ds: seq<Direction>)
    requires Valid(s) && !s.loop && Current(s) + |ds| <= s.n
    requires forall c :: Current(s) <= c < Current(s) + |ds| ==> MountedAt(window, c)
    ensures var t := SwipesWith(s, window, ds);
      && Valid(t) && Current(t) == Current(s) + |ds| && t.n == s.n && !t.loop
      && |t.history| == if |s.history| + |ds| > HistoryLimit then HistoryLimit else |s.history| + |ds|
    decreases |ds|
  {
    if ds != [] {
      SwipeOneWith(s, window, ds[0]);
      var next := Swipe(Remount(s, window(s.activeIndex)), ds[0]).state;
      SwipeRun(next, window, ds[1..]);
      assert SwipesWith(s, window, ds) == SwipesWith(next, window, ds[1..]);
    }
  }

  /** One successful back from a valid state with the previous card mounted. */
  lemma BackOne(s: Controller)
    requires Valid(s) && |s.history| >= 2
    requires HasHandle(s, Current(s) - 1)
    ensures var next := SwipeBack(s).state;
      && Valid(next) && next.activeIndex == s.activeIndex - 1.0 && Current(next) == Current(s) - 1
      && next.history == s.history[..|s.history| - 1] && next.mounted == s.mounted && next.n == s.n
      && next.loop == s.loop
  {
    CurrentIsFloor(s);
    SwipeBackStep(s);
    SwipeBackPreservesValid(s);
  }

  /** One back of a re-rendered deck that mounts the previous card. */
  lemma BackOneWith(s: Controller, window: Render)
    requires Valid(s) && |s.history| >= 2 && PreviousMountedAt(window, Current(s))
    ensures var next := SwipeBack(Remount(s, window(s.activeIndex))).state;
      && Valid(next) && Current(next) == Current(s) - 1 && next.n == s.n && next.loop == s.loop
      && next.history == s.history[..|s.history| - 1]
  {
    var r := Remount(s, window(s.activeIndex));
    CurrentIsFloor(s);
    assert HasHandle(r, Current(r) - 1);
    BackOne(r);
  }

  /**
    `k` backs, each with the previous card mounted, each undo one history
    entry.
  */
  lemma {:induction false} BackRun(s: Controller, window: Render, k: nat)
    requires Valid(s) && k < |s.history|
    requires forall c :: Current(s) - k < c <= Current(s) ==> PreviousMountedAt(window, c)
    ensures var t := BacksWith(s, window, k);
      Valid(t) && t.n == s.n && t.loop == s.loop && t.history == s.history[..|s.history| - k]
    decreases k
  {
    if k > 0 {
      BackOneWith(s, window);
      var next := SwipeBack(Remount(s, window(s.activeIndex))).state;
      BackRun(next, window, k - 1);
      assert BacksWith(s, window, k) == BacksWith(next, window, k - 1);
      assert next.history[..|next.history| - (k - 1)] == s.history[..|s.history| - k];
    }
  }

  /**
    Bounded undo: after `m <= MaxBackSteps` swipes through existing cards
    without looping, `m` backs restore the active index, provided each card is
    mounted while the deck rests on it and on the card after it; the history is
    then the newest part of the original one that the bound let survive.
  */
  lemma RoundTrip(s: Controller, window: Render, ds: seq<Direction>)
    requires Valid(s) && !s.loop && |ds| <= MaxBackSteps && Current(s) + |ds| <= s.n
    requires forall c :: Current(s) <= c < Current(s) + |ds| ==> MountedAt(window, c)
    requires forall c :: Current(s) < c <= Current(s) + |ds| ==> PreviousMountedAt(window, c)
    ensures BacksWith(SwipesWith(s, window, ds), window, |ds|).activeIndex == s.activeIndex
    ensures var keep := if |s.history| + |ds| > HistoryLimit then HistoryLimit - |ds| else |s.history|;
      BacksWith(SwipesWith(s, window, ds), window, |ds|).history == s.history[|s.history| - keep..]
  {
    SwipesThenBacks(s, window, ds);
    SurvivingSuffix(s, BacksWith(SwipesWith(s, window, ds), window, |ds|), |ds|);
  }

  /**
    A valid state back on the starting card, whose history lost the entries
    the bound dropped during `m` swipes, holds the newest part of the old one.
  */
  lemma SurvivingSuffix(s: Controller, t: Controller, m: nat)
    requires Valid(s) && Valid(t) && Current(t) == Current(s) && m <= MaxBackSteps
    requires |t.history| == if |s.history| + m > HistoryLimit then HistoryLimit - m else |s.history|
    ensures t.history == s.history[|s.history| - |t.history|..]
  {
    SameRunIsSuffix(s, t);
  }

  /** The swipes and backs of `RoundTrip` land on a valid state on the starting card. */
  lemma SwipesThenBacks(s: Controller, window: Render, ds: seq<Direction>)
    requires Valid(s) && !s.loop && |ds| <= MaxBackSteps && Current(s) + |ds| <= s.n
    requires forall c :: Current(s) <= c < Current(s) + |ds| ==> MountedAt(window, c)
    requires forall c :: Current(s) < c <= Current(s) + |ds| ==> PreviousMountedAt(window, c)
    ensures var t := BacksWith(SwipesWith(s, window, ds), window, |ds|);
      && Valid(t) && Current(t) == Current(s) && t.activeIndex == s.activeIndex
      && |t.history| == if |s.history| + |ds| > HistoryLimit then HistoryLimit - |ds| else |s.history|
  {
    SwipeRun(s, window, ds);
    var mid := SwipesWith(s, window, ds);
    BackRun(mid, window, |ds|);
    var t := BacksWith(mid, window, |ds|);
    CurrentIsFloor(s);
    CurrentIsFloor(mid);
    CurrentIsFloor(t);
  }

  /** Two valid states on the same card: the shorter history is a suffix of the longer. */
  lemma SameRunIsSuffix(s: Controller, t: Controller)
    requires Valid(s) && Valid(t) && Current(s) == Current(t) && |t.history| <= |s.history|
    ensures t.history == s.history[|s.history| - |t.history|..]
  {
    CurrentIsFloor(s);
    CurrentIsFloor(t);
  }

  /**
    A swipe followed by a back, with the swiped card still mounted when going
    back (the window may re-render in between), returns to the swiped card.
  */
  lemma SwipeThenBack(s: Controller, d: Direction, remounted: set<int>)
    requires Valid(s) && !s.loop
    requires HasHandle(s, Current(s))
    requires Current(s) in remounted
    ensures SwipeBack(Remount(Swipe(s, d).state, remounted)).state.activeIndex == s.activeIndex
    ensures SwipeBack(Remount(Swipe(s, d).state, remounted)).calls == [HandleBack(Current(s))]
  {
    SwipedAndRemounted(s, d, remounted);
    SwipeBackStep(Remount(Swipe(s, d).state, remounted));
  }

  /** The state `SwipeThenBack` goes back from: valid, one card on, the swiped card mounted. */
  lemma SwipedAndRemounted(s: Controller, d: Direction, remounted: set<int>)
    requires Valid(s) && !s.loop
    requires HasHandle(s, Current(s))
    requires Current(s) in remounted
    ensures var u := Remount(Swipe(s, d).state, remounted);
      && Valid(u) && |u.history| >= 2 && Current(u) == Current(s) + 1
      && HasHandle(u, Current(s)) && s.activeIndex == Current(s) as real
  {
    SwipeMountedStep(s, d);
  }

  /**
    However the mounted cards change between calls, at most `MaxBackSteps`
    backs in a row from a valid state take effect.
  */
  lemma AtMostMaxBackSteps(s: Controller, mounts: seq<set<int>>)
    requires Valid(s)
    ensures Backs(s, mounts).1 <= MaxBackSteps
  {
  }

  /** The loop-reset scenario: five cards, at the last one, one more swipe. */
  lemma LoopScenario(mounted: set<int>)
    requires 4 in mounted
    ensures var s := Controller(4.0, [1, 2, 3, 4], 5, true, mounted);
      Valid(s) && Swipe(s, Right).state.activeIndex == 0.0 && Swipe(s, Right).state.history == [0]
  {
    var s := Controller(4.0, [1, 2, 3, 4], 5, true, mounted);
    assert s.activeIndex.Floor == 4;
  }
}

=== FILE: swiper.dfy ===
/**
  The `Swiper` component as a whole: the controller whose card handles are
  exactly the cards the render window mounts. Because the window reaches
  `MaxWindowSize` cards behind the current one and the history reaches
  `MaxBackSteps` cards back, and both are 3, every card "swipe back" can
  return to is mounted when every item is truthy. A falsy item gets no card
  and so no handle.
*/
module Swiper {
  import opened Wrappers
  import opened SwipeControls
  import opened SwipeControlsProofs
  import opened Window
  import opened Reactions

  /** Every item is truthy, so every window position gets a card. */
  predicate AllTruthy<T>(data: seq<T>, truthy: T -> bool)
  {
    forall i :: 0 <= i < |data| ==> truthy(data[i])
  }

  /** The component's render: the handles of the cards the window shows for an active index. */
  function WindowRender<T>(data: seq<T>, truthy: T -> bool): Render
  {
    x => MountedIndexes(RenderedCards(data, truthy, x))
  }

  /**
    With every item truthy, a handle is mounted at exactly the dataset
    positions within `MaxWindowSize` of the window's anchor.
  */
  lemma WindowHandles<T>(data: seq<T>, truthy: T -> bool, x: real)
    requires AllTruthy(data, truthy)
    ensures forall i :: i in WindowRender(data, truthy)(x) <==>
      0 <= i < |data| && Anchor(x, |data|) - MaxWindowSize <= i <= Anchor(x, |data|) + MaxWindowSize
  {
    var cards := RenderedCards(data, truthy, x);
    RenderedCardsShape(data, truthy, x);
    var a := Anchor(x, |data|);
    forall i
      ensures i in MountedIndexes(cards) <==> 0 <= i < |data| && a - MaxWindowSize <= i <= a + MaxWindowSize
    {
      if i in MountedIndexes(cards) {
        var k :| 0 <= k < |cards| && cards[k].index == i;
        assert cards[k] in cards;
      }
      if 0 <= i < |data| && a - MaxWindowSize <= i <= a + MaxWindowSize {
        assert Card(i, data[i]) in cards;
        var k :| 0 <= k < |cards| && cards[k] == Card(i, data[i]);
      }
    }
  }

  /**
    Resting on any card the window mounts that card and the one before it,
    and resting on the "all swiped" sentinel it mounts the last card.
  */
  lemma WindowMountsRecentCards<T>(data: seq<T>, truthy: T -> bool)
    requires AllTruthy(data, truthy)
    ensures forall c :: 0 <= c < |data| ==> MountedAt(WindowRender(data, truthy), c)
    ensures forall c :: 0 < c <= |data| ==> PreviousMountedAt(WindowRender(data, truthy), c)
  {
    forall c | 0 <= c < |data|
      ensures MountedAt(WindowRender(data, truthy), c)
    {
      WindowHandles(data, truthy, c as real);
      FloorOfInt(c);
    }
    forall c | 0 < c <= |data|
      ensures PreviousMountedAt(WindowRender(data, truthy), c)
    {
      WindowHandles(data, truthy, c as real);
      FloorOfInt(c);
    }
  }

  /**
    In a rendered deck of truthy items every history entry before the current
    card has a mounted handle, so none of the backs the history allows is
    refused for a missing card.
  */
  lemma RenderedHistoryMounted<T>(s: Controller, data: seq<T>, truthy: T -> bool)
    requires Valid(s) && s.n == |data| && AllTruthy(data, truthy)
    ensures var r := Remount(s, WindowRender(data, truthy)(s.activeIndex));
      forall k :: 0 <= k < |s.history| - 1 ==> HasHandle(r, s.history[k])
  {
    WindowHandles(data, truthy, s.activeIndex);
    CurrentIsFloor(s);
  }

  /** Swiping through existing cards of a rendered deck moves one card per swipe. */
  lemma RenderedSwipeRun<T>(s: Controller, data: seq<T>, truthy: T -> bool, ds: seq<Direction>)
    requires Valid(s) && !s.loop && s.n == |data| && AllTruthy(data, truthy)
    requires Current(s) + |ds| <= s.n
    ensures SwipesWith(s, WindowRender(data, truthy), ds).activeIndex == s.activeIndex + |ds| as real
  {
    WindowMountsRecentCards(data, truthy);
    CurrentIsFloor(s);
    SwipeRun(s, WindowRender(data, truthy), ds);
    CurrentIsFloor(SwipesWith(s, WindowRender(data, truthy), ds));
  }

  /**
    Bounded undo in the real deck: after `m <= MaxBackSteps` swipes through
    existing cards, `m` calls of `swipeBack` return to the starting card,
    re-rendering the window before every call.
  */
  lemma RenderedRoundTrip<T>(s: Controller, data: seq<T>, truthy: T -> bool, ds: seq<Direction>)
    requires Valid(s) && !s.loop && s.n == |data| && AllTruthy(data, truthy)
    requires |ds| <= MaxBackSteps && Current(s) + |ds| <= s.n
    ensures var w := WindowRender(data, truthy);
      BacksWith(SwipesWith(s, w, ds), w, |ds|).activeIndex == s.activeIndex
  {
    WindowMountsRecentCards(data, truthy);
    CurrentIsFloor(s);
    RoundTrip(s, WindowRender(data, truthy), ds);
  }

  /**
    While swiping forward without looping, `onSwipedAll` runs at most once:
    exactly when the last swipe reaches the end of the deck.
  */
  lemma SwipedAllOnceWhileSwiping(s: Controller, window: Render, ds: seq<Direction>)
    requires !s.loop && !AllSwiped(s.activeIndex, s.n)
    ensures SwipedAllCount(Some(false), IndexTrace(s, window, ds), s.n)
      == if |ds| > 0 && AllSwiped(IndexTrace(s, window, ds)[|ds| - 1], s.n) then 1 else 0
    ensures SwipedAllCount(Some(false), IndexTrace(s, window, ds), s.n) <= 1
  {
    SwipesMonotone(s, window, ds);
    SwipedAllAtMostOnce(Some(false), IndexTrace(s, window, ds), s.n);
  }

  /**
    Under the conditions of `SwipeRun` the index trace starts one card after
    the starting index and climbs with every swipe.
  */
  lemma {:induction false} SwipeTraceIncreasing(s: Controller, window: Render, ds: seq<Direction>)
    requires Valid(s) && !s.loop && Current(s) + |ds| <= s.n
    requires forall c :: Current(s) <= c < Current(s) + |ds| ==> MountedAt(window, c)
    ensures |ds| > 0 ==> IndexTrace(s, window, ds)[0] == s.activeIndex + 1.0
    ensures StrictlyIncreasing(IndexTrace(s, window, ds))
    decreases |ds|
  {
    if ds != [] {
      SwipeOneWith(s, window, ds[0]);
      SwipeOneIndex(s, window, ds[0]);
      var next := Swipe(Remount(s, window(s.activeIndex)), ds[0]).state;
      SwipeTraceIncreasing(next, window, ds[1..]);
      assert IndexTrace(s, window, ds) == [next.activeIndex] + IndexTrace(next, window, ds[1..]);
      ConsStrictlyIncreasing(next.activeIndex, IndexTrace(next, window, ds[1..]));
    }
  }

  /**
    Swiping through existing cards of a rendered deck, `onIndexChange`
    receives every new index, one per swipe.
  */
  lemma EverySwipeReported<T>(s: Controller, data: seq<T>, truthy: T -> bool, ds: seq<Direction>)
    requires Valid(s) && !s.loop && s.n == |data| && AllTruthy(data, truthy)
    requires Current(s) + |ds| <= s.n
    ensures var trace := IndexTrace(s, WindowRender(data, truthy), ds);
      IndexReports(Some(s.activeIndex), trace) == trace
  {
    WindowMountsRecentCards(data, truthy);
    CurrentIsFloor(s);
    var trace := IndexTrace(s, WindowRender(data, truthy), ds);
    SwipeTraceIncreasing(s, WindowRender(data, truthy), ds);
    IncreasingTraceFullyReported(s.activeIndex, trace);
  }

  /** The ten-card window: at card 5 it holds cards 2 to 8, at card 6 cards 3 to 9. */
  lemma TenCardWindow()
    ensures VisibleIndexes(5.0, 10) == [2, 3, 4, 5, 6, 7, 8]
    ensures VisibleIndexes(6.0, 10) == [3, 4, 5, 6, 7, 8, 9]
  {
    assert Anchor(5.0, 10) == 5;
    assert Anchor(6.0, 10) == 6;
  }

  /** The ten-card deck: from card 5, one swipe reaches card 6 and a swipe back returns to card 5. */
  lemma TenCardSwipeAndBack<T>(data: seq<T>, truthy: T -> bool)
    requires |data| == 10 && AllTruthy(data, truthy)
    ensures var w := WindowRender(data, truthy);
      var t := SwipesWith(Controller(5.0, [5], 10, false, {}), w, [Right]);
      && t.activeIndex == 6.0
      && BacksWith(t, w, 1).activeIndex == 5.0
  {
    var s := Controller(5.0, [5], 10, false, {});
    assert Valid(s) && Current(s) == 5;
    RenderedSwipeRun(s, data, truthy, [Right]);
    RenderedRoundTrip(s, data, truthy, [Right]);
  }
}

=== FILE: window.dfy ===
/**
  The symmetric render window of the `Swiper` component: which dataset
  positions are materialised for a given active index, and the card list
  built from them.
*/
module Window {

  /** Cards rendered on each side of the current one. */
  const MaxWindowSize: nat := 3

  function Min(a: int, b: int): int
  {
    if a <= b then a else b
  }

  function Max(a: int, b: int): int
  {
    if a >= b then a else b
  }

  /** The integers `lo, lo + 1, ..., hi` in the order the render loop pushes them. */
  function Range(lo: int, hi: int): (r: seq<int>)
    ensures |r| == if lo <= hi then hi - lo + 1 else 0
    ensures forall k :: 0 <= k < |r| ==> r[k] == lo + k
    decreases hi - lo
  {
    if lo > hi then [] else Range(lo, hi - 1) + [hi]
  }

  /** An integer is in `Range(lo, hi)` exactly when it lies between the bounds. */
  lemma RangeMembers(lo: int, hi: int)
    ensures forall i :: i in Range(lo, hi) <==> lo <= i <= hi
  {
    var r := Range(lo, hi);
    forall i | lo <= i <= hi
      ensures i in r
    {
      assert r[i - lo] == i;
    }
  }

  /** The position the window is centred on: the floored index, clamped to the last card. */
  function Anchor(activeIndex: real, n: nat): int
  {
    Min(activeIndex.Floor, n - 1)
  }

  /**
    `visibleIndexes`: the positions within `MaxWindowSize` of the anchor that
    exist in the dataset, in ascending order.
  */
  function VisibleIndexes(activeIndex: real, n: nat): (w: seq<int>)
    ensures forall k :: 0 <= k < |w| ==> 0 <= w[k] < n
    ensures |w| <= 2 * MaxWindowSize + 1
    ensures forall j, k :: 0 <= j < k < |w| ==> w[j] < w[k]
    ensures forall i :: i in w <==>
      0 <= i < n && Anchor(activeIndex, n) - MaxWindowSize <= i <= Anchor(activeIndex, n) + MaxWindowSize
    ensures n > 0 && activeIndex >= 0.0 ==> Anchor(activeIndex, n) in w
    ensures n == 0 ==> w == []
  {
    var a := Anchor(activeIndex, n);
    var lo := Max(0, a - MaxWindowSize);
    var hi := Min(n - 1, a + MaxWindowSize);
    var w := Range(lo, hi);
    RangeMembers(lo, hi);
    w
  }

  /** A rendered card: the dataset position and the item passed to `renderCard`. */
  datatype Card<T> = Card(index: int, item: T)

  /**
    `visibleCards`: one card per window position, in window order, skipping
    positions whose item is falsy (`truthy` is JavaScript truthiness of an item).
  */
  function VisibleCards<T>(data: seq<T>, truthy: T -> bool, window: seq<int>): (cards: seq<Card<T>>)
    requires forall k :: 0 <= k < |window| ==> 0 <= window[k] < |data|
    ensures |cards| <= |window|
    ensures forall c :: c in cards ==> c.index in window && c.item == data[c.index] && truthy(c.item)
    ensures forall k :: 0 <= k < |window| && truthy(data[window[k]]) ==> Card(window[k], data[window[k]]) in cards
    decreases |window|
  {
    if window == [] then []
    else
      var i := window[0];
      var rest := VisibleCards(data, truthy, window[1..]);
      assert forall k :: 0 < k < |window| ==> window[k] == window[1..][k - 1];
      if truthy(data[i]) then [Card(i, data[i])] + rest else rest
  }

  /** Cards appear in strictly ascending dataset position. */
  predicate CardsAscending<T>(cards: seq<Card<T>>)
  {
    forall j, k :: 0 <= j < k < |cards| ==> cards[j].index < cards[k].index
  }

  /** Filtering keeps the order: an ascending window gives cards in ascending position order. */
  lemma {:induction false} VisibleCardsAscending<T>(data: seq<T>, truthy: T -> bool, window: seq<int>)
    requires forall k :: 0 <= k < |window| ==> 0 <= window[k] < |data|
    requires forall j, k :: 0 <= j < k < |window| ==> window[j] < window[k]
    ensures CardsAscending(VisibleCards(data, truthy, window))
    decreases |window|
  {
    if window != [] {
      var i := window[0];
      var tail := window[1..];
      assert forall k :: 0 <= k < |tail| ==> tail[k] == window[k + 1];
      var rest := VisibleCards(data, truthy, tail);
      VisibleCardsAscending(data, truthy, tail);
      if truthy(data[i]) {
        CardsAbove(rest, tail, i);
        PrependCard(Card(i, data[i]), rest);
      }
    }
  }

  /** Cards drawn from window positions above `bound` all sit above `bound`. */
  lemma CardsAbove<T>(cards: seq<Card<T>>, window: seq<int>, bound: int)
    requires forall c :: c in cards ==> c.index in window
    requires forall k :: 0 <= k < |window| ==> bound < window[k]
    ensures forall k :: 0 <= k < |cards| ==> bound < cards[k].index
  {
    forall k | 0 <= k < |cards|
      ensures bound < cards[k].index
    {
      assert cards[k] in cards;
    }
  }

  /** A card below every card of an ascending list extends it ascending. */
  lemma PrependCard<T>(c: Card<T>, cards: seq<Card<T>>)
    requires CardsAscending(cards)
    requires forall k :: 0 <= k < |cards| ==> c.index < cards[k].index
    ensures CardsAscending([c] + cards)
  {
  }

  /** The cards rendered for an active index over the whole dataset. */
  function RenderedCards<T>(data: seq<T>, truthy: T -> bool, activeIndex: real): seq<Card<T>>
  {
    VisibleCards(data, truthy, VisibleIndexes(activeIndex, |data|))
  }

  /** The positions whose card (and so whose handle) is mounted after a render. */
  function MountedIndexes<T>(cards: seq<Card<T>>): set<int>
  {
    set k | 0 <= k < |cards| :: cards[k].index
  }

  /**
    What a render shows: at most `2 * MaxWindowSize + 1` cards in ascending
    order, each a truthy item within `MaxWindowSize` of the anchor; and every
    truthy item within that distance is shown.
  */
  lemma RenderedCardsShape<T>(data: seq<T>, truthy: T -> bool, activeIndex: real)
    ensures |RenderedCards(data, truthy, activeIndex)| <= 2 * MaxWindowSize + 1
    ensures CardsAscending(RenderedCards(data, truthy, activeIndex))
    ensures forall c :: c in RenderedCards(data, truthy, activeIndex) ==>
      && 0 <= c.index < |data| && c.item == data[c.index] && truthy(c.item)
      && Anchor(activeIndex, |data|) - MaxWindowSize <= c.index <= Anchor(activeIndex, |data|) + MaxWindowSize
    ensures forall i ::
      (0 <= i < |data| && truthy(data[i])
       && Anchor(activeIndex, |data|) - MaxWindowSize <= i <= Anchor(activeIndex, |data|) + MaxWindowSize)
      ==> Card(i, data[i]) in RenderedCards(data, truthy, activeIndex)
  {
    var w := VisibleIndexes(activeIndex, |data|);
    var cards := VisibleCards(data, truthy, w);
    VisibleCardsAscending(data, truthy, w);
    forall i | 0 <= i < |data| && truthy(data[i])
        && Anchor(activeIndex, |data|) - MaxWindowSize <= i <= Anchor(activeIndex, |data|) + MaxWindowSize
      ensures Card(i, data[i]) in cards
    {
      assert i in w;
      var k :| 0 <= k < |w| && w[k] == i;
    }
  }

  /**
    With the index at or past the end of a non-empty dataset the window is
    clamped to end at the last card, which it contains.
  */
  lemma WindowPastEnd(activeIndex: real, n: nat)
    requires n > 0 && activeIndex >= n as real
    ensures |VisibleIndexes(activeIndex, n)| > 0
    ensures VisibleIndexes(activeIndex, n)[|VisibleIndexes(activeIndex, n)| - 1] == n - 1
  {
    var w := VisibleIndexes(activeIndex, n);
    assert Anchor(activeIndex, n) == n - 1;
    assert n - 1 in w;
  }
}

=== FILE: wrappers.dfy ===
/** An optional value, shared by the swiper modules. */
module Wrappers {

  /** A value that may be absent, as a JavaScript `null`/`undefined` previous value is. */
  datatype Option<+T> = None | Some(value: T)
}
